=== FILE: README.md ===
# Contact service core, modelled in Dafny

This project models the behavioural core of a small contact-list web API
(FastAPI over SQLAlchemy): the contact repository, the `/contacts` endpoint
logic, the user repository, and the `/auth` endpoints with their single
refresh-token slot per user. The database is replaced by immutable in-memory
tables; every operation is a pure function from the table (and request) to a
new table and a reply.

Modules:

- `Options` (`options.dfy`): `Option` for `None`-or-value returns, `Result` for
  calls that may raise.
- `Calendar` (`calendar.dfy`): Python `datetime.date` arithmetic (years
  1..9999, Gregorian leap rule, `toordinal`), the `%m-%d` label, and the
  `YYYY-MM-DD` form the database parses birthdays with. Adding days is proved
  against the ordinal count, which serves as the independent reference.
- `Models` (`models.dfy`): `Role`, `Contact`, `ContactBody`, `Field`, `User`,
  `UserBody`.
- `ContactRepo` (`contact_repo.dfy`): the `contacts` table (id → row map, scan
  order, serial id counter) and the seven repository operations.
- `ContactRoutes` (`contact_routes.dfy`): parameter defaults and bounds, the
  search filter map, the 404 mapping, the birthday window, the seven endpoints.
- `UserRepo` (`user_repo.dfy`): the `users` table keyed by its unique email,
  and the three repository operations.
- `AuthRoutes` (`auth_routes.dfy`): sign-up, login and refresh as transitions,
  with lemmas about the refresh-token state machine.

Abstract parameters: the clock (a `Clock` gives the date of each read), the
password hash function, the password check, the refresh-token decoder, the
tokens issued during a request, and the outcome of the avatar lookup.

Facts about the code that shape the model:

- Contacts have no owner column and no query filters by user; the contact
  endpoints take no authenticated identity. The model has no ownership.
- The list and search endpoints accept only `10 <= limit <= 500`.
- Login reports "Invalid email" and "Invalid password" as different details.
- The birthday endpoint reads the clock afresh on every entry of its loop, so
  a request that runs across midnight builds its window from two dates.

## Model

| member | source | states |
|---|---|---|
| `Calendar.NextDay` | src/routes/contacts.py:50 | the following day has ordinal one higher and is a valid date; there is none exactly at the last representable date (Python's OverflowError) |
| `Calendar.AddDays` | src/routes/contacts.py:50 | adding `n` days yields the valid date whose ordinal is `n` higher, and yields nothing exactly when that passes 31 December 9999 |
| `Calendar.OrdinalInjective` | src/routes/contacts.py:50 | two valid dates with the same ordinal are the same date, so the day count is a faithful reference for calendar arithmetic |
| `Calendar.AddDaysReaches` | src/routes/contacts.py:49-50 | every valid date on or after the start is reached by adding the difference of ordinals |
| `Calendar.YearStep` | src/routes/contacts.py:50 | each year adds 366 days to the count when it is a Gregorian leap year and 365 otherwise |
| `Calendar.MonthDayLabelMatches` | src/routes/contacts.py:51 | two dates have the same `%m-%d` label if and only if they have the same month and day, whatever the years |
| `Calendar.ParseFormatRoundTrip` | src/repositories/contacts.py:67 | a valid date written as `YYYY-MM-DD` parses back to the same date |
| `Calendar.ParseIso` | src/repositories/contacts.py:67 | the canonical-spelling subset of `to_date(birthday, 'YYYY-MM-DD')`: a string it accepts is exactly the canonical spelling of the valid date it yields, and a string it rejects is the canonical spelling of no valid date |
| `Calendar.FormatIsSpelled` | src/repositories/contacts.py:67 | every valid date's `YYYY-MM-DD` form has the digit shape and spells that date back |
| `Calendar.MonthDayLabel` | src/routes/contacts.py:51 | the `%m-%d` label (and `to_char(..., 'MM-DD')`) is five characters: two digits whose value is the month, a dash, two digits whose value is the day |
| `Models.RoleNamesBijective` | src/models/models.py:14-17 | the three roles carry the three distinct stored names admin, moderator, user |
| `ContactRepo.RowsAreTheTable` | src/models/models.py:20-28 | a scan of the table returns a contact exactly when it is the row stored under its own id |
| `ContactRepo.IdIsPrimaryKey` | src/models/models.py:22 | two scanned rows with the same id are the same row |
| `ContactRepo.Page` | src/repositories/contacts.py:12 | an offset/limit page has at most `limit` elements, starts `offset` elements in, and is as long as the remaining rows allow |
| `ContactRepo.PagesTile` | src/repositories/contacts.py:12 | a page of `a` rows followed by the page after it of `b` rows is the page of `a + b` rows |
| `ContactRepo.GetContacts` | src/repositories/contacts.py:11-14 | returns at most `limit` stored rows, the `i`-th being the row `offset + i` in scan order |
| `ContactRepo.Filter` | src/repositories/contacts.py:18 | keeps exactly the rows whose filtered columns equal the filter values, in their original order (a subsequence), and never repeats a row |
| `ContactRepo.RowsAreDistinct` | src/models/models.py:22 | a scan never returns the same row twice, the id being the primary key |
| `ContactRepo.FilterNothing` | src/repositories/contacts.py:18 | an empty filter map keeps every row, in order |
| `ContactRepo.SearchContacts` | src/repositories/contacts.py:17-20 | returns exactly the `offset`/`limit` window of the matching rows in scan order (its length and its `i`-th element fixed), each a stored row matching every filter key exactly, with no row twice |
| `ContactRepo.SearchIsComplete` | src/repositories/contacts.py:17-20 | a first page at least as large as the table returns a contact if and only if it is stored and matches every filter |
| `ContactRepo.SearchWithoutFilters` | src/repositories/contacts.py:11-20 | search with an empty filter map equals the plain listing for the same limit and offset |
| `ContactRepo.GetContactById` | src/repositories/contacts.py:23-26 | returns the one stored contact with that id, and `None` when no row has it |
| `ContactRepo.AddContact` | src/repositories/contacts.py:29-34 | stores one new row under the next serial value, never a previously used one, and advances the sequence by one; the row has the body's fields, all other rows are unchanged and the scan gains it at the end |
| `ContactRepo.AppendRow` | src/repositories/contacts.py:29-34 | appending a row under the next serial id keeps the table invariants and adds exactly that row at the end of the scan |
| `ContactRepo.UpdateContact` | src/repositories/contacts.py:37-51 | an absent id gives `None` and no change; a present id has its six client fields replaced by the body's, keeping the id, with every other row, the scan order and the serial sequence unchanged |
| `ContactRepo.RemoveId` | src/repositories/contacts.py:60 | the scan order loses exactly the deleted key and stays duplicate-free |
| `ContactRepo.DeleteContact` | src/repositories/contacts.py:54-62 | an absent id gives `None` and no change; a present id is removed and its row returned, the table shrinking by one; the serial sequence does not step back |
| `ContactRepo.DeletedIdNotReused` | src/repositories/contacts.py:29-62 | the first insert after deleting a row gets an id different from the deleted one |
| `ContactRepo.DeleteRemovesExactlyOne` | src/repositories/contacts.py:54-62 | after a delete, a scan returns exactly the other contacts |
| `ContactRepo.SelectBirthdays` | src/repositories/contacts.py:66-68 | succeeds exactly when every non-null birthday parses as a date, and then keeps exactly the rows whose birthday's month-day label is in the list, in their original order (a subsequence), with no duplicates when the input has none |
| `ContactRepo.NextBirthday` | src/repositories/contacts.py:65-70 | over the whole table: the rows whose birthday month-day is among the labels, year ignored, each stored row at most once and in scan order; a query error when some stored birthday is not a date |
| `ContactRoutes.SearchFilters` | src/routes/contacts.py:32-38 | a filter key is present if and only if its parameter is present and non-empty, and maps to that parameter's text |
| `ContactRoutes.FiltersMeanParams` | src/routes/contacts.py:32-40 | a contact matches the built filter map if and only if it agrees with every non-empty parameter |
| `ContactRoutes.PageParams` | src/routes/contacts.py:28-29 | accepted if and only if `10 <= limit <= 500` and `offset >= 0` after the defaults 10 and 0 |
| `ContactRoutes.FoundOrNotFound` | src/routes/contacts.py:62-70 | `None` becomes 404 with detail "Contact not found"; a contact is returned unchanged with 200 |
| `ContactRoutes.ListContacts` | src/routes/contacts.py:73-80 | 422 unless the page parameters are in bounds; otherwise at most `limit` contacts |
| `ContactRoutes.SearchContacts` | src/routes/contacts.py:23-42 | 422 unless the page parameters are in bounds; otherwise the repository's search window over the filter map of the non-empty parameters, so at most `limit` contacts, each agreeing with every non-empty parameter |
| `ContactRoutes.SearchFindsEveryMatch` | src/routes/contacts.py:23-42 | with offset 0 and a limit at least the table size, the reply holds a contact if and only if it is stored and agrees with every non-empty parameter |
| `ContactRoutes.SearchWithoutParamsIsListing` | src/routes/contacts.py:23-38 | a search with every text parameter empty or absent replies exactly as the listing endpoint |
| `ContactRoutes.GetContact` | src/routes/contacts.py:57-70 | ids below 1 are refused with 422; otherwise 404 exactly when the id is absent, else the stored row with 200 |
| `ContactRoutes.CreateContact` | src/routes/contacts.py:83-86 | always 201 with the stored row, built from the body under the next serial value, never a previously used one; the sequence advances by one |
| `ContactRoutes.UpdateContact` | src/routes/contacts.py:89-98 | ids below 1 give 422; an absent id gives 404 and no change; otherwise 200 with the replaced row, which is now stored; the serial sequence is unchanged |
| `ContactRoutes.DeleteContact` | src/routes/contacts.py:101-106 | ids below 1 give 422; otherwise 204 with no body whether or not the id existed, and the id is gone; the serial sequence is unchanged |
| `ContactRoutes.DeletedIdStaysMissing` | src/routes/contacts.py:57-106 | after a stored contact is deleted and another is created, reading the deleted id gives 404 |
| `ContactRoutes.CreateReadDeleteRead` | src/routes/contacts.py:57-106 | a created contact is read back under its generated id, and after its delete the same read gives 404 |
| `ContactRoutes.BirthdayWindow` | src/routes/contacts.py:48-52 | has exactly `next_day` entries (none for `next_day <= 0`), entry `i` being the `%m-%d` label of the date read on entry `i` plus `i` days; fails exactly when some entry passes the last representable date |
| `ContactRoutes.SteadyClockWindow` | src/routes/contacts.py:49-50 | when the clock shows one date throughout, the window is that date's `next_day` consecutive labels, and it fits exactly when its last day is representable |
| `ContactRoutes.MidnightSkipsADay` | src/routes/contacts.py:49-50 | a clock reading 10 March 2024 on the first entry and 11 March afterwards gives the two-entry window 03-10, 03-12, missing 03-11 |
| `ContactRoutes.WindowIsDateRange` | src/routes/contacts.py:48-52 | a label is in the window if and only if some date among the `next_day` days starting today carries it |
| `ContactRoutes.YearWrapWindow` | src/routes/contacts.py:49-51 | in every year but the last, the 7-day window from 28 December is 12-28, 12-29, 12-30, 12-31, 01-01, 01-02, 01-03 |
| `ContactRoutes.AddDaysAlong` | src/routes/contacts.py:50 | along a run of consecutive days, adding `i` days to the first gives the `i`-th |
| `ContactRoutes.BirthdayInWindow` | src/routes/contacts.py:46-54 | a birthday's label is in the window if and only if its month and day fall on one of the window's days |
| `ContactRoutes.BirthdayInClockWindow` | src/routes/contacts.py:49-53 | a birthday's label is in a window built on a clock if and only if its month and day are those of some entry's date |
| `ContactRoutes.NextBirthday` | src/routes/contacts.py:46-54 | 200 with exactly the stored contacts whose birthday month and day are those of some window entry's date, each once and in scan order, which on a steady clock means within the next `next_day` days counting today; the server's 500 reply when some entry overflows or a stored birthday is not a date |
| `UserRepo.KeysAreUnique` | src/models/models.py:33-35 | two stored users with the same email, or the same id, are the same user |
| `UserRepo.GetUserByEmail` | src/repositories/users.py:11-15 | returns the one stored user with that email, or `None` |
| `UserRepo.AddUser` | src/repositories/users.py:18-30 | with `avatar` nullable: fails exactly on an email already present; otherwise stores one new user with the body's fields, the avatar outcome, an empty refresh-token slot and the default role `user`, leaving the others unchanged |
| `UserRepo.AddUserAsDeclared` | src/models/models.py:37 | with `avatar` NOT NULL as declared: a raised avatar lookup always fails with a not-null violation on `avatar`, checked before email uniqueness; otherwise it is the nullable insert, failing exactly on a present email |
| `UserRepo.AvatarFailureBreaksInsert` | src/repositories/users.py:19-30 | for a new email whose avatar lookup raised, the declared table refuses the insert while the nullable one stores the user with no avatar |
| `UserRepo.UpdateToken` | src/repositories/users.py:33-35 | sets only that user's refresh-token slot (to a token or `None`); every other field and user is unchanged |
| `AuthRoutes.Signup` | src/routes/auth.py:32-45 | 409 with no change exactly when the email is already present; otherwise the new user is retrievable by email and its stored password is the hash of the plaintext |
| `AuthRoutes.SignupStoresNoPlaintext` | src/routes/auth.py:38-39 | with a hash that never returns its input, the stored password is never the plaintext |
| `AuthRoutes.Login` | src/routes/auth.py:48-72 | succeeds if and only if the email is known and the password verifies; failures are 401 with no change; success puts exactly the returned refresh token in the slot and returns token type "bearer" |
| `AuthRoutes.Refresh` | src/routes/auth.py:75-98 | a decoder failure passes through unchanged; a token that is not the slot's empties the slot and fails with 401; the slot's token is rotated to the newly issued one |
| `AuthRoutes.RevokedSlotRefusesEverything` | src/routes/auth.py:85-89 | after a mismatch the slot is empty and any later refresh for that user, the replayed token included, fails |
| `AuthRoutes.RotationRetiresPresentedToken` | src/routes/auth.py:91-98 | after a successful refresh, presenting the old token again succeeds only if the new token is the same text |
| `AuthRoutes.LoginThenRefresh` | src/routes/auth.py:65-98 | the refresh token a login returns is accepted by the next refresh |
| `AuthRoutes.SecondLoginRetiresFirst` | src/routes/auth.py:65-67 | after a second login the first login's refresh token is refused |

## Left out

- Database sessions, commits, refreshes and transaction isolation: each call is one atomic step on an immutable table.
- Row order of unordered `SELECT`s: the database promises none; the model fixes it as insertion order, which is what pagination runs over.
- Column length limits (`String(50)` and similar) and the request-schema validation of body fields: the schema files are not part of this model.
- `ContactRepo.NextBirthday`: accepts only the canonical `YYYY-MM-DD` spelling with years 1..9999; PostgreSQL's `to_date` also accepts some looser spellings and year 0, which the model treats as errors.
- `Calendar.ParseIso`: models only the canonical `YYYY-MM-DD` spellings that `to_date` accepts; looser spellings PostgreSQL also accepts, such as `2024-1-5`, are rejected here.
- `ContactRoutes.NextBirthday`: a stored birthday in a looser spelling `to_date` accepts, such as `2024-1-5`, gives a 500 in the model where the endpoint replies 200.
- Negative `limit`/`offset` at the repository level: the repository takes natural numbers, because its only callers pass validated values.
- Password hashing and checking, JWT encoding and decoding, token expiry: abstract function parameters (the token service is not part of this model).
- `AuthRoutes.Refresh`: requires that the decoded email belongs to a stored user; the source dereferences the missing user without a check, which would raise.
- The avatar lookup: its outcome is a parameter, `None` standing for a raised lookup.
- `created_at`/`updated_at` timestamps, the nullable `role` column (no in-scope path writes NULL), print and logging calls.
- The public-profile projection of the sign-up reply (the response schema is not part of this model); the model returns the stored user.
- The health-check and index routes and router mounting in `main.py` (the auth router is not mounted there).
- The clock and the issued tokens: parameters, since they come from the system clock and the token service.
- `ContactRoutes.BirthdayWindow` and `ContactRoutes.NextBirthday`: the clock is a function of the entry number only; the time zone and the time of day are not modelled.
- `ContactRoutes.NextBirthday`: the 500 reply is the server's generic error body, modelled as one `ServerError` value without its text.
- `ContactRoutes.PageParams`: accepts any `offset >= 0`; PostgreSQL's `OFFSET` is a 64-bit `bigint`, so an offset of 2^63 or more makes the query fail with a 500, which the model does not represent.
- `ContactRoutes.ListContacts`: an offset of 2^63 or more gives an empty page in the model, where the database query fails and the reply is a 500.
- `ContactRoutes.SearchContacts`: an offset of 2^63 or more gives an empty page in the model, where the database query fails and the reply is a 500.
- `ContactRepo.AddContact`: ids come from an unbounded counter; the `Integer` key's serial sequence ends at 2^31 - 1, after which the insert fails.
- `UserRepo.AddUser`: ids come from an unbounded counter; the `Integer` key's serial sequence ends at 2^31 - 1, after which the insert fails.
- `ContactRoutes.GetContact`: a path id above 2^31 - 1 gives 404 in the model; against the 32-bit `Integer` column the database driver refuses the parameter and the reply is a 500.
- `ContactRoutes.UpdateContact`: a path id above 2^31 - 1 gives 404 in the model, where the database driver refuses the parameter and the reply is a 500.
- `ContactRoutes.DeleteContact`: a path id above 2^31 - 1 gives 204 in the model, where the database driver refuses the parameter and the reply is a 500.
- `AuthRoutes.Signup`: stores through the nullable-avatar insert `UserRepo.AddUser`; with the column as declared, a sign-up whose avatar lookup raised ends in a 500 instead (see Findings).
- `ContactRepo.NextBirthday`: with an empty label list (`next_day <= 0`) the model still evaluates every stored birthday and fails on a malformed one; how the database plans an empty `IN` list is not modelled.

## Findings

| source | as written | input that shows it | evidently intended | confidence | as-written member | corrected member |
|---|---|---|---|---|---|---|
| src/models/models.py:37, src/repositories/users.py:19-30 | `avatar` is declared without `nullable=True`, so NOT NULL, yet `add_user` catches a failing avatar lookup and inserts `avatar = None` | sign-up with a new email while the avatar lookup raises: the commit fails with a not-null violation | the lookup's failure leaves the avatar empty and the user is stored | not executed; follows from the column declaration | `UserRepo.AddUserAsDeclared` | `UserRepo.AddUser` |

=== FILE: auth_routes.dfy ===
/** The `/auth` endpoints as transitions over the users table, whose
    per-user refresh-token slot implements "last issued refresh token wins".

    The password hasher, the password check and the refresh-token decoder are
    abstract function parameters; the tokens the token service issues during
    a request are plain parameters, since they depend on the clock. */
module AuthRoutes {
  import opened Options
  import opened Models
  import UserRepo

  datatype HttpError = HttpError(status: int, detail: string)

  /** The token reply body. */
  datatype Tokens = Tokens(accessToken: string, refreshToken: string, tokenType: string)

  /** The table after a request, and the reply (or the raised HTTP error). */
  datatype Step<T> = Step(users: UserRepo.UserTable, reply: Result<T, HttpError>)

  const AccountExists := HttpError(409, "Account already exists")
  const InvalidEmail := HttpError(401, "Invalid email")
  const InvalidPassword := HttpError(401, "Invalid password")
  const InvalidRefreshToken := HttpError(401, "Invalid refresh token")
  const BearerType := "bearer"

  /** `POST /auth/signup`: refuse a known email; otherwise store the user with
      the hashed password and the avatar lookup's outcome. */
  function Signup(t: UserRepo.UserTable, body: UserBody, hash: string -> string, avatar: Option<string>): (r: Step<User>)
    requires UserRepo.Valid(t)
    ensures UserRepo.Valid(r.users)
    ensures r.reply.Err? <==> body.email in t.byEmail
    ensures r.reply.Err? ==> r.reply.error == AccountExists && r.users == t
    ensures r.reply.Ok? ==>
      var u := r.reply.value;
      && UserRepo.GetUserByEmail(r.users, body.email) == Some(u)
      && u.password == hash(body.password)
      && u.username == body.username && u.avatar == avatar && u.refreshToken == None
      && r.users.byEmail.Keys == t.byEmail.Keys + {body.email}
      && (forall e :: e in t.byEmail ==> r.users.byEmail[e] == t.byEmail[e])
  {
    match UserRepo.GetUserByEmail(t, body.email)
    case Some(_) => Step(t, Err(AccountExists))
    case None =>
      var hashed := body.(password := hash(body.password));
      var added := UserRepo.AddUser(t, hashed, avatar);
      Step(added.value.0, Ok(added.value.1))
  }

  /** With a hash that never returns its own input, the stored password is
      never the plaintext. */
  lemma SignupStoresNoPlaintext(t: UserRepo.UserTable, body: UserBody, hash: string -> string, avatar: Option<string>)
    requires UserRepo.Valid(t)
    requires forall p :: hash(p) != p
    ensures Signup(t, body, hash, avatar).reply.Ok? ==>
      Signup(t, body, hash, avatar).users.byEmail[body.email].password != body.password
  {
  }

  /** `POST /auth/login`: 401 for an unknown email or a password that does not
      verify (with distinct details); otherwise the freshly issued refresh
      token fills the user's slot and both tokens are returned. */
  function Login(t: UserRepo.UserTable, email: string, password: string, verify: (string, string) -> bool,
                 accessToken: string, refreshToken: string): (r: Step<Tokens>)
    requires UserRepo.Valid(t)
    ensures UserRepo.Valid(r.users)
    ensures r.reply.Ok? <==> email in t.byEmail && verify(password, t.byEmail[email].password)
    ensures email !in t.byEmail ==> r == Step(t, Err(InvalidEmail))
    ensures email in t.byEmail && !verify(password, t.byEmail[email].password) ==> r == Step(t, Err(InvalidPassword))
    ensures r.reply.Ok? ==>
      && r.reply.value == Tokens(accessToken, refreshToken, BearerType)
      && r.users.byEmail.Keys == t.byEmail.Keys
      && r.users.byEmail[email] == t.byEmail[email].(refreshToken := Some(refreshToken))
      && (forall e :: e in t.byEmail && e != email ==> r.users.byEmail[e] == t.byEmail[e])
  {
    match UserRepo.GetUserByEmail(t, email)
    case None => Step(t, Err(InvalidEmail))
    case Some(user) =>
      if !verify(password, user.password) then Step(t, Err(InvalidPassword))
      else Step(UserRepo.UpdateToken(t, user.email, Some(refreshToken)), Ok(Tokens(accessToken, refreshToken, BearerType)))
  }

  /** `POST /auth/refresh_token`. The decoder's own failure is passed through.
      A presented token that is not the one in the user's slot empties the
      slot and is refused; the one in the slot is replaced by the newly issued
      token, which is returned with a new access token. */
  function Refresh(t: UserRepo.UserTable, presented: string, decodeRefresh: string -> Result<string, HttpError>,
                   accessToken: string, refreshToken: string): (r: Step<Tokens>)
    requires UserRepo.Valid(t)
    requires decodeRefresh(presented).Ok? ==> decodeRefresh(presented).value in t.byEmail
    ensures UserRepo.Valid(r.users)
    ensures decodeRefresh(presented).Err? ==> r == Step(t, Err(decodeRefresh(presented).error))
    ensures decodeRefresh(presented).Ok? ==>
      var email := decodeRefresh(presented).value;
      && r.users.byEmail.Keys == t.byEmail.Keys
      && (forall e :: e in t.byEmail && e != email ==> r.users.byEmail[e] == t.byEmail[e])
      && (r.reply.Ok? <==> t.byEmail[email].refreshToken == Some(presented))
      && (r.reply.Err? ==>
            && r.reply.error == InvalidRefreshToken
            && r.users.byEmail[email] == t.byEmail[email].(refreshToken := None))
      && (r.reply.Ok? ==>
            && r.reply.value == Tokens(accessToken, refreshToken, BearerType)
            && r.users.byEmail[email] == t.byEmail[email].(refreshToken := Some(refreshToken)))
  {
    match decodeRefresh(presented)
    case Err(e) => Step(t, Err(e))
    case Ok(email) =>
      var user := UserRepo.GetUserByEmail(t, email).value;
      if user.refreshToken != Some(presented) then
        Step(UserRepo.UpdateToken(t, user.email, None), Err(InvalidRefreshToken))
      else
        Step(UserRepo.UpdateToken(t, user.email, Some(refreshToken)), Ok(Tokens(accessToken, refreshToken, BearerType)))
  }

  // ---- the refresh-token state machine ------------------------------------

  /** Once a refresh has been refused for a mismatch, every later refresh for
      that user fails, the replayed token included, until the next login. */
  lemma RevokedSlotRefusesEverything(t: UserRepo.UserTable, presented: string, decodeRefresh: string -> Result<string, HttpError>,
                                     access1: string, refresh1: string, later: string, access2: string, refresh2: string)
    requires UserRepo.Valid(t)
    requires decodeRefresh(presented).Ok? && decodeRefresh(presented).value in t.byEmail
    requires Refresh(t, presented, decodeRefresh, access1, refresh1).reply.Err?
    requires decodeRefresh(later) == decodeRefresh(presented)
    ensures var t1 := Refresh(t, presented, decodeRefresh, access1, refresh1).users;
      && t1.byEmail[decodeRefresh(presented).value].refreshToken == None
      && Refresh(t1, later, decodeRefresh, access2, refresh2).reply == Err(InvalidRefreshToken)
  {
  }

  /** A successful refresh retires the presented token: presenting it again
      fails, unless the token service happened to issue the very same text. */
  lemma RotationRetiresPresentedToken(t: UserRepo.UserTable, presented: string, decodeRefresh: string -> Result<string, HttpError>,
                                      access1: string, refresh1: string, access2: string, refresh2: string)
    requires UserRepo.Valid(t)
    requires decodeRefresh(presented).Ok? && decodeRefresh(presented).value in t.byEmail
    requires Refresh(t, presented, decodeRefresh, access1, refresh1).reply.Ok?
    ensures var t1 := Refresh(t, presented, decodeRefresh, access1, refresh1).users;
      Refresh(t1, presented, decodeRefresh, access2, refresh2).reply.Ok? <==> refresh1 == presented
  {
  }

  /** The refresh token a login returns is accepted by the next refresh. */
  lemma LoginThenRefresh(t: UserRepo.UserTable, email: string, password: string, verify: (string, string) -> bool,
                         access1: string, refresh1: string, decodeRefresh: string -> Result<string, HttpError>,
                         access2: string, refresh2: string)
    requires UserRepo.Valid(t)
    requires Login(t, email, password, verify, access1, refresh1).reply.Ok?
    requires decodeRefresh(refresh1) == Ok(email)
    ensures var t1 := Login(t, email, password, verify, access1, refresh1).users;
      Refresh(t1, refresh1, decodeRefresh, access2, refresh2).reply == Ok(Tokens(access2, refresh2, BearerType))
  {
  }

  /** A later login for the same user retires the refresh token of an earlier
      one: one live refresh token per user. */
  lemma SecondLoginRetiresFirst(t: UserRepo.UserTable, email: string, password: string, verify: (string, string) -> bool,
                                access1: string, refresh1: string, access2: string, refresh2: string,
                                decodeRefresh: string -> Result<string, HttpError>, access3: string, refresh3: string)
    requires UserRepo.Valid(t)
    requires Login(t, email, password, verify, access1, refresh1).reply.Ok?
    requires refresh1 != refresh2
    requires decodeRefresh(refresh1) == Ok(email)
    ensures var t1 := Login(t, email, password, verify, access1, refresh1).users;
      var t2 := Login(t1, email, password, verify, access2, refresh2).users;
      Refresh(t2, refresh1, decodeRefresh, access3, refresh3).reply == Err(InvalidRefreshToken)
  {
  }
}

=== FILE: calendar.dfy ===
/** Gregorian calendar arithmetic as Python's `datetime.date` performs it, plus
    the two text forms the contact service uses: the `%m-%d` month-day label and
    the `YYYY-MM-DD` ISO form the birthday column is parsed with.

    The independent reference is the proleptic Gregorian ordinal (1 January of
    year 1 is day 1), which is how Python itself adds a `timedelta` to a date. */
module Calendar {
  import opened Options

  datatype Date = Date(year: int, month: int, day: int)

  /** Python's `date.min.year` and `date.max.year`. */
  const MinYear := 1
  const MaxYear := 9999

  /** `date.max.toordinal()`, the ordinal of 31 December 9999. */
  const MaxOrdinal := 3652059

  predicate IsLeapYear(y: int) {
    y % 4 == 0 && (y % 100 != 0 || y % 400 == 0)
  }

  function DaysInMonth(y: int, m: int): int
    requires 1 <= m <= 12
  {
    if m == 2 then (if IsLeapYear(y) then 29 else 28)
    else if m == 4 || m == 6 || m == 9 || m == 11 then 30
    else 31
  }

  function DaysInYear(y: int): int {
    if IsLeapYear(y) then 366 else 365
  }

  /** A date Python can represent. */
  predicate Valid(d: Date) {
    && MinYear <= d.year <= MaxYear
    && 1 <= d.month <= 12
    && 1 <= d.day <= DaysInMonth(d.year, d.month)
  }

  /** Number of days in the years before `y`. */
  function DaysBeforeYear(y: int): int
    requires y >= 1
  {
    var p := y - 1;
    p * 365 + p / 4 - p / 100 + p / 400
  }

  /** Number of days in year `y` before the first of month `m`. */
  function DaysBeforeMonth(y: int, m: int): int
    requires 1 <= m <= 12
  {
    var base :=
      if m == 1 then 0 else if m == 2 then 31 else if m == 3 then 59
      else if m == 4 then 90 else if m == 5 then 120 else if m == 6 then 151
      else if m == 7 then 181 else if m == 8 then 212 else if m == 9 then 243
      else if m == 10 then 273 else if m == 11 then 304 else 334;
    if m > 2 && IsLeapYear(y) then base + 1 else base
  }

  /** Python's `date.toordinal()`. */
  function Ordinal(d: Date): int
    requires Valid(d)
  {
    DaysBeforeYear(d.year) + DaysBeforeMonth(d.year, d.month) + d.day
  }

  /** Moving from `p` to `p + 1` raises each leap-rule quotient by one exactly
      when `p + 1` is a multiple of the divisor. */
  lemma DivStep(p: int)
    requires p >= 0
    ensures (p + 1) / 4 - p / 4 == if (p + 1) % 4 == 0 then 1 else 0
    ensures (p + 1) / 100 - p / 100 == if (p + 1) % 100 == 0 then 1 else 0
    ensures (p + 1) / 400 - p / 400 == if (p + 1) % 400 == 0 then 1 else 0
  {
  }

  /** A year contributes exactly its length to the day count. */
  lemma YearStep(y: int)
    requires y >= 1
    ensures DaysBeforeYear(y + 1) == DaysBeforeYear(y) + DaysInYear(y)
  {
    var p := y - 1;
    DivStep(p);
    var s4 := (p + 1) / 4 - p / 4;
    var s100 := (p + 1) / 100 - p / 100;
    var s400 := (p + 1) / 400 - p / 400;
    assert DaysBeforeYear(y + 1) - DaysBeforeYear(y) == 365 + s4 - s100 + s400;
    assert s4 == (if y % 4 == 0 then 1 else 0);
    assert s100 == (if y % 100 == 0 then 1 else 0);
    assert s400 == (if y % 400 == 0 then 1 else 0);
    LeapRule(y);
  }

  lemma LeapRule(y: int)
    ensures DaysInYear(y) == 365 + (if y % 4 == 0 then 1 else 0) - (if y % 100 == 0 then 1 else 0) + (if y % 400 == 0 then 1 else 0)
  {
    if y % 100 == 0 {
      var k := y / 100;
      assert y == 4 * (25 * k);
    }
    if y % 400 == 0 {
      var k := y / 400;
      assert y == 100 * (4 * k);
    }
  }

  lemma {:induction false} DaysBeforeYearGrows(a: int, b: int)
    requires 1 <= a < b
    ensures DaysBeforeYear(a) + DaysInYear(a) <= DaysBeforeYear(b)
    decreases b - a
  {
    YearStep(a);
    if a + 1 < b {
      DaysBeforeYearGrows(a + 1, b);
    }
  }

  /** The months of a year tile it: month `m` ends where month `m + 1` starts. */
  lemma MonthsTile(y: int, m1: int, m2: int)
    requires 1 <= m1 < m2 <= 12
    ensures DaysBeforeMonth(y, m1) + DaysInMonth(y, m1) <= DaysBeforeMonth(y, m2)
    ensures m2 == m1 + 1 ==> DaysBeforeMonth(y, m1) + DaysInMonth(y, m1) == DaysBeforeMonth(y, m2)
  {
  }

  /** Every valid date lies inside its own year's range of ordinals. */
  lemma OrdinalWithinYear(d: Date)
    requires Valid(d)
    ensures DaysBeforeYear(d.year) < Ordinal(d) <= DaysBeforeYear(d.year) + DaysInYear(d.year)
  {
    assert DaysBeforeMonth(d.year, 12) + 31 == DaysInYear(d.year);
    if d.month < 12 {
      MonthsTile(d.year, d.month, 12);
    }
  }

  lemma OrdinalBounds(d: Date)
    requires Valid(d)
    ensures 1 <= Ordinal(d) <= MaxOrdinal
  {
    OrdinalWithinYear(d);
    assert DaysBeforeYear(MaxYear) + DaysInYear(MaxYear) == MaxOrdinal;
    if d.year < MaxYear {
      DaysBeforeYearGrows(d.year, MaxYear);
    }
  }

  /** The ordinal names each valid date uniquely. */
  lemma OrdinalInjective(a: Date, b: Date)
    requires Valid(a) && Valid(b)
    requires Ordinal(a) == Ordinal(b)
    ensures a == b
  {
    OrdinalWithinYear(a);
    OrdinalWithinYear(b);
    if a.year < b.year {
      DaysBeforeYearGrows(a.year, b.year);
    } else if b.year < a.year {
      DaysBeforeYearGrows(b.year, a.year);
    }
    assert a.year == b.year;
    if a.month < b.month {
      MonthsTile(a.year, a.month, b.month);
    } else if b.month < a.month {
      MonthsTile(a.year, b.month, a.month);
    }
  }

  /** The day after `d`, or `None` past `date.max` (Python raises OverflowError). */
  function NextDay(d: Date): (r: Option<Date>)
    requires Valid(d)
    ensures r.Some? <==> Ordinal(d) < MaxOrdinal
    ensures r.Some? ==> Valid(r.value) && Ordinal(r.value) == Ordinal(d) + 1
  {
    if d.day < DaysInMonth(d.year, d.month) then
      Some(Date(d.year, d.month, d.day + 1))
    else if d.month < 12 then
      MonthsTile(d.year, d.month, d.month + 1);
      OrdinalBounds(Date(d.year, d.month + 1, 1));
      Some(Date(d.year, d.month + 1, 1))
    else if d.year < MaxYear then
      YearStep(d.year);
      OrdinalBounds(Date(d.year + 1, 1, 1));
      Some(Date(d.year + 1, 1, 1))
    else
      None
  }

  /** `d + timedelta(days=n)` for `n >= 0`, or `None` when Python would raise
      OverflowError. */
  function AddDays(d: Date, n: nat): (r: Option<Date>)
    requires Valid(d)
    ensures r.Some? <==> Ordinal(d) + n <= MaxOrdinal
    ensures r.Some? ==> Valid(r.value) && Ordinal(r.value) == Ordinal(d) + n
    decreases n
  {
    if n == 0 then Some(d)
    else
      match NextDay(d)
      case None => None
      case Some(e) => AddDays(e, n - 1)
  }

  /** Every date from `d` up to `date.max` is reached by adding days to `d`. */
  lemma AddDaysReaches(d: Date, e: Date)
    requires Valid(d) && Valid(e)
    requires Ordinal(d) <= Ordinal(e)
    ensures AddDays(d, Ordinal(e) - Ordinal(d)) == Some(e)
  {
    var n := Ordinal(e) - Ordinal(d);
    OrdinalBounds(e);
    var r := AddDays(d, n);
    OrdinalInjective(r.value, e);
  }

  // ---- text forms -------------------------------------------------------

  predicate IsDigit(c: char) {
    '0' <= c <= '9'
  }

  function DigitChar(n: int): (c: char)
    requires 0 <= n <= 9
    ensures IsDigit(c)
  {
    ('0' as int + n) as char
  }

  function DigitValue(c: char): (n: int)
    requires IsDigit(c)
    ensures 0 <= n <= 9 && DigitChar(n) == c
  {
    c as int - '0' as int
  }

  /** Zero-padded two-digit decimal, as `%m` and `%d` print. */
  function Pad2(n: int): (s: string)
    requires 0 <= n <= 99
    ensures |s| == 2 && IsDigit(s[0]) && IsDigit(s[1])
    ensures TwoDigits(s[0], s[1]) == n
  {
    [DigitChar(n / 10), DigitChar(n % 10)]
  }

  /** Zero-padded four-digit decimal, as `%Y` / `YYYY` print. */
  function Pad4(n: int): (s: string)
    requires 0 <= n <= 9999
    ensures |s| == 4 && forall i :: 0 <= i < 4 ==> IsDigit(s[i])
    ensures 100 * TwoDigits(s[0], s[1]) + TwoDigits(s[2], s[3]) == n
  {
    Pad2(n / 100) + Pad2(n % 100)
  }

  /** Value of two decimal digits. */
  function TwoDigits(c0: char, c1: char): (n: int)
    requires IsDigit(c0) && IsDigit(c1)
    ensures 0 <= n <= 99
  {
    10 * DigitValue(c0) + DigitValue(c1)
  }

  /** The `%m-%d` label of a date: two digits spelling the month, a dash, two
      digits spelling the day. */
  function MonthDayLabel(d: Date): (s: string)
    requires Valid(d)
    ensures |s| == 5 && s[2] == '-'
    ensures IsDigit(s[0]) && IsDigit(s[1]) && IsDigit(s[3]) && IsDigit(s[4])
    ensures TwoDigits(s[0], s[1]) == d.month && TwoDigits(s[3], s[4]) == d.day
  {
    Pad2(d.month) + "-" + Pad2(d.day)
  }

  /** Two dates share a label exactly when they share month and day; the year
      plays no part. */
  lemma MonthDayLabelMatches(a: Date, b: Date)
    requires Valid(a) && Valid(b)
    ensures MonthDayLabel(a) == MonthDayLabel(b) <==> a.month == b.month && a.day == b.day
  {
    if MonthDayLabel(a) == MonthDayLabel(b) {
      var s, t := MonthDayLabel(a), MonthDayLabel(b);
      assert s[0..2] == Pad2(a.month) && t[0..2] == Pad2(b.month);
      assert s[3..5] == Pad2(a.day) && t[3..5] == Pad2(b.day);
    }
  }

  /** The `YYYY-MM-DD` form of a date. */
  function IsoFormat(d: Date): (s: string)
    requires Valid(d)
    ensures |s| == 10
  {
    Pad4(d.year) + "-" + Pad2(d.month) + "-" + Pad2(d.day)
  }

  predicate IsIsoShape(s: string) {
    && |s| == 10
    && s[4] == '-' && s[7] == '-'
    && (forall i :: 0 <= i < 4 ==> IsDigit(s[i]))
    && IsDigit(s[5]) && IsDigit(s[6]) && IsDigit(s[8]) && IsDigit(s[9])
  }

  /** The date a `YYYY-MM-DD`-shaped string spells, digit by digit. */
  function Spelled(s: string): Date
    requires IsIsoShape(s)
  {
    Date(100 * TwoDigits(s[0], s[1]) + TwoDigits(s[2], s[3]), TwoDigits(s[5], s[6]), TwoDigits(s[8], s[9]))
  }

  /** `to_date(s, 'YYYY-MM-DD')` on a canonical string: the date it spells, or
      `None` where the database rejects the text. Whatever it accepts is the
      exact formatting of the date it returns, so a birthday that parses has
      one spelling only. */
  function ParseIso(s: string): (r: Option<Date>)
    ensures r.Some? ==> Valid(r.value) && IsoFormat(r.value) == s
    ensures r.None? ==> forall d :: Valid(d) ==> IsoFormat(d) != s
  {
    if !IsIsoShape(s) then
      NoDateSpells(s);
      None
    else
      var d := Spelled(s);
      if Valid(d) then
        SpellingFormatsBack(s);
        Some(d)
      else
        NoDateSpells(s);
        None
  }

  /** Every formatted date is shaped, and spells itself. */
  lemma FormatIsSpelled(d: Date)
    requires Valid(d)
    ensures IsIsoShape(IsoFormat(d)) && Spelled(IsoFormat(d)) == d
  {
    var s := IsoFormat(d);
    assert s[0..2] == Pad2(d.year / 100) && s[2..4] == Pad2(d.year % 100);
    assert s[5..7] == Pad2(d.month);
    assert s[8..10] == Pad2(d.day);
  }

  /** Text that is not shaped, or spells no valid date, is no date's
      formatting. */
  lemma NoDateSpells(s: string)
    requires !IsIsoShape(s) || !Valid(Spelled(s))
    ensures forall d :: Valid(d) ==> IsoFormat(d) != s
  {
    forall d | Valid(d)
      ensures IsoFormat(d) != s
    {
      FormatIsSpelled(d);
    }
  }

  /** A shaped string whose spelled date is valid is that date's formatting. */
  lemma SpellingFormatsBack(s: string)
    requires IsIsoShape(s) && Valid(Spelled(s))
    ensures IsoFormat(Spelled(s)) == s
  {
    var d := Spelled(s);
    var hi, lo := TwoDigits(s[0], s[1]), TwoDigits(s[2], s[3]);
    assert d.year == 100 * hi + lo;
    assert d.year / 100 == hi && d.year % 100 == lo;
    assert Pad4(d.year) == Pad2(hi) + Pad2(lo);
    Pad2OfDigits(s[0], s[1]);
    Pad2OfDigits(s[2], s[3]);
    Pad2OfDigits(s[5], s[6]);
    Pad2OfDigits(s[8], s[9]);
    assert s == [s[0], s[1]] + [s[2], s[3]] + "-" + [s[5], s[6]] + "-" + [s[8], s[9]];
  }

  /** Formatting then parsing gives the date back. */
  lemma ParseFormatRoundTrip(d: Date)
    requires Valid(d)
    ensures ParseIso(IsoFormat(d)) == Some(d)
  {
    FormatIsSpelled(d);
  }

  lemma Pad2OfDigits(c0: char, c1: char)
    requires IsDigit(c0) && IsDigit(c1)
    ensures Pad2(TwoDigits(c0, c1)) == [c0, c1]
  {
  }
}

=== FILE: contact_repo.dfy ===
/** The contact repository over an abstract in-memory table.

    The `contacts` table is a finite map from primary key to row, a scan order
    (the order the rows come back from an unordered `SELECT`, which this model
    fixes as insertion order), and the next value of the serial id sequence,
    which is never reused even after a delete. */
module ContactRepo {
  import opened Options
  import opened Models
  import Calendar

  datatype ContactTable = ContactTable(rows: map<int, Contact>, order: seq<int>, nextId: int)

  predicate NoDup<T(==)>(s: seq<T>) {
    forall i, j :: 0 <= i < j < |s| ==> s[i] != s[j]
  }

  /** The table invariants: every row is stored under its own primary key,
      keys are drawn from the id sequence (starting at 1), and the scan order
      lists every key exactly once. */
  predicate Valid(t: ContactTable) {
    && t.nextId >= 1
    && (forall id :: id in t.rows ==> t.rows[id].id == id && 1 <= id < t.nextId)
    && (forall i :: 0 <= i < |t.order| ==> t.order[i] in t.rows)
    && (forall id :: id in t.rows ==> id in t.order)
    && NoDup(t.order)
  }

  const EmptyTable := ContactTable(map[], [], 1)

  /** The rows in scan order. */
  function Rows(t: ContactTable): (r: seq<Contact>)
    requires Valid(t)
    ensures |r| == |t.order|
    ensures forall i :: 0 <= i < |r| ==> r[i] == t.rows[t.order[i]]
  {
    seq(|t.order|, i requires 0 <= i < |t.order| => t.rows[t.order[i]])
  }

  /** A scan returns each stored contact, and nothing else. */
  lemma RowsAreTheTable(t: ContactTable)
    requires Valid(t)
    ensures forall c :: c in Rows(t) <==> c.id in t.rows && t.rows[c.id] == c
  {
    forall c: Contact | c.id in t.rows && t.rows[c.id] == c
      ensures c in Rows(t)
    {
      var i :| 0 <= i < |t.order| && t.order[i] == c.id;
      assert Rows(t)[i] == c;
    }
    forall c | c in Rows(t)
      ensures c.id in t.rows && t.rows[c.id] == c
    {
      var i :| 0 <= i < |Rows(t)| && Rows(t)[i] == c;
      assert t.rows[t.order[i]].id == t.order[i];
    }
  }

  /** The primary key is unique: two scanned rows with the same id are the
      same row. */
  lemma IdIsPrimaryKey(t: ContactTable, c1: Contact, c2: Contact)
    requires Valid(t)
    requires c1 in Rows(t) && c2 in Rows(t) && c1.id == c2.id
    ensures c1 == c2
  {
    RowsAreTheTable(t);
  }

  function Min(a: int, b: int): int {
    if a <= b then a else b
  }

  /** `OFFSET offset LIMIT limit`: skip `offset` rows, then keep at most
      `limit`. */
  function Page<T>(xs: seq<T>, offset: nat, limit: nat): (r: seq<T>)
    ensures |r| <= limit
    ensures |r| == if offset >= |xs| then 0 else Min(limit, |xs| - offset)
    ensures forall i :: 0 <= i < |r| ==> r[i] == xs[offset + i]
  {
    if offset >= |xs| then [] else xs[offset .. offset + Min(limit, |xs| - offset)]
  }

  /** Consecutive pages tile the sequence: reading `a` rows then `b` rows gives
      the same rows as reading `a + b` at once. */
  lemma PagesTile<T>(xs: seq<T>, offset: nat, a: nat, b: nat)
    ensures Page(xs, offset, a) + Page(xs, offset + a, b) == Page(xs, offset, a + b)
  {
    var p, q, whole := Page(xs, offset, a), Page(xs, offset + a, b), Page(xs, offset, a + b);
    if offset < |xs| && |p| == a {
      forall j | a <= j < |whole|
        ensures (p + q)[j] == whole[j]
      {
        assert (p + q)[j] == q[j - a];
      }
    }
  }

  /** `get_contacts`: one page of the table in scan order. */
  function GetContacts(t: ContactTable, limit: nat, offset: nat): (r: seq<Contact>)
    requires Valid(t)
    ensures |r| <= limit
    ensures |r| == if offset >= |t.order| then 0 else Min(limit, |t.order| - offset)
    ensures forall i :: 0 <= i < |r| ==> r[i] == t.rows[t.order[offset + i]]
  {
    Page(Rows(t), offset, limit)
  }

  /** `filter_by(**filters)`: every filter key is an equality on its column. */
  predicate Matches(c: Contact, filters: map<Field, string>) {
    forall f :: f in filters ==> FieldValue(c, f) == filters[f]
  }

  /** `r` is `xs` with some elements left out, the rest kept in order. */
  predicate IsSubsequence<T(==)>(r: seq<T>, xs: seq<T>) {
    if r == [] then true
    else if xs == [] then false
    else (r[0] == xs[0] && IsSubsequence(r[1..], xs[1..])) || IsSubsequence(r, xs[1..])
  }

  /** The rows satisfying all filters, in their original order. */
  function Filter(xs: seq<Contact>, filters: map<Field, string>): (r: seq<Contact>)
    ensures |r| <= |xs|
    ensures forall c :: c in r <==> c in xs && Matches(c, filters)
    ensures IsSubsequence(r, xs)
    ensures NoDup(xs) ==> NoDup(r)
  {
    if xs == [] then []
    else
      var rest := Filter(xs[1..], filters);
      assert NoDup(xs) ==> xs[0] !in xs[1..] && NoDup(xs[1..]);
      if Matches(xs[0], filters) then [xs[0]] + rest else rest
  }

  /** Without filters nothing is dropped. */
  lemma {:induction false} FilterNothing(xs: seq<Contact>)
    ensures Filter(xs, map[]) == xs
  {
    if xs != [] {
      FilterNothing(xs[1..]);
      assert [xs[0]] + xs[1..] == xs;
    }
  }

  /** A scan never returns the same row twice. */
  lemma RowsAreDistinct(t: ContactTable)
    requires Valid(t)
    ensures NoDup(Rows(t))
  {
    forall i, j | 0 <= i < j < |Rows(t)|
      ensures Rows(t)[i] != Rows(t)[j]
    {
      assert Rows(t)[i].id == t.order[i] && Rows(t)[j].id == t.order[j];
    }
  }

  /** `search_contacts`: filter, then paginate. The reply is the `offset` /
      `limit` window of the matching rows taken in scan order, so every
      returned contact is a stored row matching every filter exactly. */
  function SearchContacts(t: ContactTable, filters: map<Field, string>, limit: nat, offset: nat): (r: seq<Contact>)
    requires Valid(t)
    ensures |r| <= limit
    ensures forall c :: c in r ==> Matches(c, filters) && c.id in t.rows && t.rows[c.id] == c
    ensures var m := Filter(Rows(t), filters);
      && |r| == (if offset >= |m| then 0 else Min(limit, |m| - offset))
      && forall i :: 0 <= i < |r| ==> r[i] == m[offset + i]
    ensures NoDup(r)
  {
    var matching := Filter(Rows(t), filters);
    SearchRowsAreStored(t, filters, offset, limit);
    SearchRowsAreDistinct(t, filters, offset, limit);
    Page(matching, offset, limit)
  }

  lemma SearchRowsAreStored(t: ContactTable, filters: map<Field, string>, offset: nat, limit: nat)
    requires Valid(t)
    ensures forall c :: c in Page(Filter(Rows(t), filters), offset, limit) ==>
      Matches(c, filters) && c.id in t.rows && t.rows[c.id] == c
  {
    var m := Filter(Rows(t), filters);
    var r := Page(m, offset, limit);
    assert forall i :: 0 <= i < |r| ==> r[i] in m;
    RowsAreTheTable(t);
  }

  lemma SearchRowsAreDistinct(t: ContactTable, filters: map<Field, string>, offset: nat, limit: nat)
    requires Valid(t)
    ensures NoDup(Page(Filter(Rows(t), filters), offset, limit))
  {
    RowsAreDistinct(t);
  }

  /** A first page at least as large as the table returns every stored
      contact that matches the filters, and only those. */
  lemma SearchIsComplete(t: ContactTable, filters: map<Field, string>, limit: nat)
    requires Valid(t)
    requires limit >= |t.order|
    ensures forall c :: c in SearchContacts(t, filters, limit, 0) <==>
      c.id in t.rows && t.rows[c.id] == c && Matches(c, filters)
  {
    var m := Filter(Rows(t), filters);
    assert SearchContacts(t, filters, limit, 0) == m;
    RowsAreTheTable(t);
  }

  /** With no filter keys, search is the plain listing. */
  lemma SearchWithoutFilters(t: ContactTable, limit: nat, offset: nat)
    requires Valid(t)
    ensures SearchContacts(t, map[], limit, offset) == GetContacts(t, limit, offset)
  {
    FilterNothing(Rows(t));
  }

  /** `get_contact_by_id`: the one stored contact with this id, or `None`. */
  function GetContactById(t: ContactTable, id: int): (r: Option<Contact>)
    requires Valid(t)
    ensures r.Some? ==> r.value in Rows(t) && r.value.id == id
    ensures forall c :: c in Rows(t) && c.id == id ==> r == Some(c)
  {
    RowsAreTheTable(t);
    if id in t.rows then Some(t.rows[id]) else None
  }

  /** The row built from a body under a given id. */
  function FromBody(id: int, body: ContactBody): Contact {
    Contact(id, body.firstName, body.lastName, body.phone, body.email, body.birthday, body.addition)
  }

  /** Appending a row under the next serial id keeps the table valid and adds
      the row at the end of the scan. */
  lemma AppendRow(t: ContactTable, c: Contact)
    requires Valid(t) && c.id == t.nextId
    ensures var t' := ContactTable(t.rows[c.id := c], t.order + [c.id], t.nextId + 1);
      Valid(t') && Rows(t') == Rows(t) + [c]
  {
    var t' := ContactTable(t.rows[c.id := c], t.order + [c.id], t.nextId + 1);
    assert c.id !in t.rows;
    assert Rows(t') == Rows(t) + [c];
  }

  /** `add_contact`: insert under the next serial id, which no row has ever
      had, and advance the sequence. Returns the new table and the stored
      row. */
  function AddContact(t: ContactTable, body: ContactBody): (r: (ContactTable, Contact))
    requires Valid(t)
    ensures Valid(r.0)
    ensures r.1.id == t.nextId && r.0.nextId == t.nextId + 1
    ensures r.1.id !in t.rows && r.1.id >= 1
    ensures r.1.firstName == body.firstName && r.1.lastName == body.lastName
    ensures r.1.phone == body.phone && r.1.email == body.email
    ensures r.1.birthday == body.birthday && r.1.addition == body.addition
    ensures r.0.rows.Keys == t.rows.Keys + {r.1.id} && |r.0.rows| == |t.rows| + 1
    ensures r.0.rows[r.1.id] == r.1
    ensures forall id :: id in t.rows ==> r.0.rows[id] == t.rows[id]
    ensures Rows(r.0) == Rows(t) + [r.1]
  {
    var c := FromBody(t.nextId, body);
    AppendRow(t, c);
    (ContactTable(t.rows[c.id := c], t.order + [c.id], t.nextId + 1), c)
  }

  /** `update_contact`: replace the six client fields of the row with this id,
      keeping the id; `None` and no change when there is no such row. */
  function UpdateContact(t: ContactTable, id: int, body: ContactBody): (r: (ContactTable, Option<Contact>))
    requires Valid(t)
    ensures Valid(r.0)
    ensures id !in t.rows ==> r.1 == None && r.0 == t
    ensures id in t.rows ==> r.1.Some? && r.1.value.id == id
    ensures id in t.rows ==>
      && r.1.value.firstName == body.firstName && r.1.value.lastName == body.lastName
      && r.1.value.phone == body.phone && r.1.value.email == body.email
      && r.1.value.birthday == body.birthday && r.1.value.addition == body.addition
    ensures id in t.rows ==> r.0.rows.Keys == t.rows.Keys && r.0.rows[id] == r.1.value
    ensures forall other :: other in t.rows && other != id ==> r.0.rows[other] == t.rows[other]
    ensures r.0.order == t.order && r.0.nextId == t.nextId
  {
    if id !in t.rows then (t, None)
    else
      var c := FromBody(id, body);
      (ContactTable(t.rows[id := c], t.order, t.nextId), Some(c))
  }

  /** The scan order with one key taken out. */
  function RemoveId(order: seq<int>, id: int): (r: seq<int>)
    ensures forall x :: x in r <==> x in order && x != id
    ensures NoDup(order) ==> NoDup(r)
  {
    if order == [] then []
    else
      var rest := RemoveId(order[1..], id);
      if order[0] == id then rest
      else
        assert NoDup(order) ==> order[0] !in order[1..] && NoDup(order[1..]);
        [order[0]] + rest
  }

  /** `delete_contact`: remove the row with this id and return it; `None` and
      no change when there is no such row. */
  function DeleteContact(t: ContactTable, id: int): (r: (ContactTable, Option<Contact>))
    requires Valid(t)
    ensures Valid(r.0)
    ensures id !in t.rows ==> r.1 == None && r.0 == t
    ensures id in t.rows ==> r.1 == Some(t.rows[id])
    ensures r.0.rows == t.rows - {id}
    ensures id in t.rows ==> |r.0.rows| == |t.rows| - 1
    ensures r.0.nextId == t.nextId
  {
    if id !in t.rows then (t, None)
    else
      var order := RemoveId(t.order, id);
      assert forall i :: 0 <= i < |order| ==> order[i] in order;
      (ContactTable(t.rows - {id}, order, t.nextId), Some(t.rows[id]))
  }

  /** After a delete, a scan returns exactly the other contacts. */
  lemma DeleteRemovesExactlyOne(t: ContactTable, id: int, c: Contact)
    requires Valid(t)
    ensures c in Rows(DeleteContact(t, id).0) <==> c in Rows(t) && c.id != id
  {
    RowsAreTheTable(t);
    RowsAreTheTable(DeleteContact(t, id).0);
  }

  /** The serial sequence does not step back on a delete: the next insert
      after deleting a row gets an id different from the deleted one. */
  lemma DeletedIdNotReused(t: ContactTable, id: int, body: ContactBody)
    requires Valid(t) && id in t.rows
    ensures AddContact(DeleteContact(t, id).0, body).1.id != id
  {
  }

  // ---- upcoming birthdays -------------------------------------------------

  /** The database refuses a stored birthday that is not a date. */
  datatype DbError = InvalidDate(text: string)

  /** A NULL birthday is fine; a non-NULL one must parse as `YYYY-MM-DD`. */
  predicate BirthdayParses(c: Contact) {
    c.birthday.Some? ==> Calendar.ParseIso(c.birthday.value).Some?
  }

  /** The contact's birthday, reduced to its `MM-DD` label, is one of the
      labels asked for. */
  predicate BirthdayIn(c: Contact, labels: seq<string>)
    requires BirthdayParses(c)
  {
    c.birthday.Some? && Calendar.MonthDayLabel(Calendar.ParseIso(c.birthday.value).value) in labels
  }

  /** Evaluate the birthday condition row by row; any unparsable birthday
      aborts the whole query. */
  function SelectBirthdays(xs: seq<Contact>, labels: seq<string>): (r: Result<seq<Contact>, DbError>)
    ensures r.Ok? <==> forall c :: c in xs ==> BirthdayParses(c)
    ensures r.Ok? ==> forall c :: c in r.value <==> c in xs && BirthdayIn(c, labels)
    ensures r.Ok? ==> IsSubsequence(r.value, xs) && (NoDup(xs) ==> NoDup(r.value))
  {
    assert xs != [] && NoDup(xs) ==> xs[0] !in xs[1..] && NoDup(xs[1..]);
    if xs == [] then Ok([])
    else if !BirthdayParses(xs[0]) then Err(InvalidDate(xs[0].birthday.value))
    else
      match SelectBirthdays(xs[1..], labels)
      case Err(e) => Err(e)
      case Ok(rest) => Ok(if BirthdayIn(xs[0], labels) then [xs[0]] + rest else rest)
  }

  /** `next_birthday`: every stored contact whose birthday's month and day
      appear among the labels, each once and in scan order; the year is
      ignored. */
  function NextBirthday(t: ContactTable, labels: seq<string>): (r: Result<seq<Contact>, DbError>)
    requires Valid(t)
    ensures r.Ok? <==> forall c :: c in Rows(t) ==> BirthdayParses(c)
    ensures r.Ok? ==> forall c :: c in r.value <==> c in Rows(t) && BirthdayIn(c, labels)
    ensures r.Ok? ==> IsSubsequence(r.value, Rows(t)) && NoDup(r.value)
  {
    RowsAreDistinct(t);
    SelectBirthdays(Rows(t), labels)
  }
}

=== FILE: contact_routes.dfy ===
/** The `/contacts` endpoints: query-parameter validation and defaults, the
    search filter map, the birthday window, and the translation of repository
    results into replies. The clock is a parameter. */
module ContactRoutes {
  import opened Options
  import opened Models
  import Calendar
  import ContactRepo

  /** What an endpoint sends back: a payload, a `{"detail": ...}` body, the
      framework's validation-error body, the server's plain-text reply to an
      unhandled exception, or nothing. */
  datatype Body<T> = Payload(value: T) | Detail(message: string) | ValidationError | ServerError | NoBody

  datatype Reply<T> = Reply(status: int, body: Body<T>)

  const NotFoundDetail := "Contact not found"

  const DefaultLimit := 10
  const MinLimit := 10
  const MaxLimit := 500
  const DefaultOffset := 0
  const DefaultNextDay := 7

  /** Python truthiness of an optional text parameter: present and non-empty. */
  predicate Given(p: Option<string>) {
    p.Some? && p.value != ""
  }

  /** The filter map of `search_contacts`: one key per non-empty parameter,
      mapped to that parameter's text. */
  function SearchFilters(firstName: Option<string>, lastName: Option<string>, email: Option<string>): (r: map<Field, string>)
    ensures FirstName in r <==> Given(firstName)
    ensures LastName in r <==> Given(lastName)
    ensures Email in r <==> Given(email)
    ensures FirstName in r ==> r[FirstName] == firstName.value
    ensures LastName in r ==> r[LastName] == lastName.value
    ensures Email in r ==> r[Email] == email.value
  {
    var m0: map<Field, string> := map[];
    var m1 := if Given(firstName) then m0[FirstName := firstName.value] else m0;
    var m2 := if Given(lastName) then m1[LastName := lastName.value] else m1;
    if Given(email) then m2[Email := email.value] else m2
  }

  /** The `limit` / `offset` query parameters after defaults and the
      `ge`/`le` checks; `None` is a validation failure. */
  function PageParams(limit: Option<int>, offset: Option<int>): (r: Option<(nat, nat)>)
    ensures r.Some? <==>
      (limit.None? || MinLimit <= limit.value <= MaxLimit) && (offset.None? || offset.value >= 0)
    ensures r.Some? ==> MinLimit <= r.value.0 <= MaxLimit
    ensures r.Some? ==> r.value.0 == (if limit.Some? then limit.value else DefaultLimit)
    ensures r.Some? ==> r.value.1 == (if offset.Some? then offset.value else DefaultOffset)
  {
    var l := if limit.Some? then limit.value else DefaultLimit;
    var o := if offset.Some? then offset.value else DefaultOffset;
    if MinLimit <= l <= MaxLimit && o >= 0 then Some((l, o)) else None
  }

  /** A path contact id must be at least 1. */
  predicate ValidPathId(id: int) {
    id >= 1
  }

  /** A missing contact becomes a 404 with the fixed detail; a found one is
      returned as it is. */
  function FoundOrNotFound(found: Option<Contact>): (r: Reply<Contact>)
    ensures found.None? <==> r.status == 404
    ensures found.None? ==> r.body == Detail(NotFoundDetail)
    ensures found.Some? ==> r == Reply(200, Payload(found.value))
  {
    match found
    case None => Reply(404, Detail(NotFoundDetail))
    case Some(c) => Reply(200, Payload(c))
  }

  /** `GET /contacts/` */
  function ListContacts(t: ContactRepo.ContactTable, limit: Option<int>, offset: Option<int>): (r: Reply<seq<Contact>>)
    requires ContactRepo.Valid(t)
    ensures r.status == 200 <==> PageParams(limit, offset).Some?
    ensures r.status != 200 ==> r == Reply(422, ValidationError)
    ensures r.status == 200 ==> r.body.Payload? && |r.body.value| <= PageParams(limit, offset).value.0
    ensures r.status == 200 ==>
      var (l, o) := PageParams(limit, offset).value;
      r.body.value == ContactRepo.GetContacts(t, l, o)
  {
    match PageParams(limit, offset)
    case None => Reply(422, ValidationError)
    case Some((l, o)) => Reply(200, Payload(ContactRepo.GetContacts(t, l, o)))
  }

  /** A contact agrees with every non-empty search parameter. */
  predicate MatchesParams(c: Contact, firstName: Option<string>, lastName: Option<string>, email: Option<string>) {
    && (Given(firstName) ==> c.firstName == firstName.value)
    && (Given(lastName) ==> c.lastName == lastName.value)
    && (Given(email) ==> c.email == email.value)
  }

  /** The filter map selects exactly the contacts that agree with the given
      parameters; empty parameters constrain nothing. */
  lemma FiltersMeanParams(c: Contact, firstName: Option<string>, lastName: Option<string>, email: Option<string>)
    ensures ContactRepo.Matches(c, SearchFilters(firstName, lastName, email)) <==> MatchesParams(c, firstName, lastName, email)
  {
    var filters := SearchFilters(firstName, lastName, email);
    if MatchesParams(c, firstName, lastName, email) {
      forall f | f in filters
        ensures FieldValue(c, f) == filters[f]
      {
      }
    }
    if ContactRepo.Matches(c, filters) {
      if Given(firstName) { assert FieldValue(c, FirstName) == filters[FirstName]; }
      if Given(lastName) { assert FieldValue(c, LastName) == filters[LastName]; }
      if Given(email) { assert FieldValue(c, Email) == filters[Email]; }
    }
  }

  /** `GET /contacts/search` */
  function SearchContacts(t: ContactRepo.ContactTable, firstName: Option<string>, lastName: Option<string>,
                          email: Option<string>, limit: Option<int>, offset: Option<int>): (r: Reply<seq<Contact>>)
    requires ContactRepo.Valid(t)
    ensures r.status == 200 <==> PageParams(limit, offset).Some?
    ensures r.status != 200 ==> r == Reply(422, ValidationError)
    ensures r.status == 200 ==> r.body.Payload? && |r.body.value| <= PageParams(limit, offset).value.0
    ensures r.status == 200 ==> forall c :: c in r.body.value ==> MatchesParams(c, firstName, lastName, email)
    ensures r.status == 200 ==>
      var (l, o) := PageParams(limit, offset).value;
      r.body.value == ContactRepo.SearchContacts(t, SearchFilters(firstName, lastName, email), l, o)
  {
    match PageParams(limit, offset)
    case None => Reply(422, ValidationError)
    case Some((l, o)) =>
      var filters := SearchFilters(firstName, lastName, email);
      var found := ContactRepo.SearchContacts(t, filters, l, o);
      forall c | c in found
        ensures MatchesParams(c, firstName, lastName, email)
      {
        FiltersMeanParams(c, firstName, lastName, email);
      }
      Reply(200, Payload(found))
  }

  /** A first page at least as large as the table answers the search
      completely: a contact is in the reply exactly when it is stored and
      agrees with every non-empty parameter. */
  lemma SearchFindsEveryMatch(t: ContactRepo.ContactTable, firstName: Option<string>, lastName: Option<string>,
                              email: Option<string>, limit: int)
    requires ContactRepo.Valid(t)
    requires MinLimit <= limit <= MaxLimit && limit >= |t.order|
    ensures SearchContacts(t, firstName, lastName, email, Some(limit), None).status == 200
    ensures forall c :: c in SearchContacts(t, firstName, lastName, email, Some(limit), None).body.value <==>
      c.id in t.rows && t.rows[c.id] == c && MatchesParams(c, firstName, lastName, email)
  {
    var filters := SearchFilters(firstName, lastName, email);
    ContactRepo.SearchIsComplete(t, filters, limit);
    forall c: Contact
      ensures ContactRepo.Matches(c, filters) <==> MatchesParams(c, firstName, lastName, email)
    {
      FiltersMeanParams(c, firstName, lastName, email);
    }
  }

  /** A search with every text parameter empty or absent lists the same page
      as `GET /contacts/`. */
  lemma SearchWithoutParamsIsListing(t: ContactRepo.ContactTable, firstName: Option<string>, lastName: Option<string>,
                                     email: Option<string>, limit: Option<int>, offset: Option<int>)
    requires ContactRepo.Valid(t)
    requires !Given(firstName) && !Given(lastName) && !Given(email)
    ensures SearchContacts(t, firstName, lastName, email, limit, offset) == ListContacts(t, limit, offset)
  {
    assert SearchFilters(firstName, lastName, email) == map[];
    if PageParams(limit, offset).Some? {
      var (l, o) := PageParams(limit, offset).value;
      ContactRepo.SearchWithoutFilters(t, l, o);
    }
  }

  /** `GET /contacts/{contact_id}` */
  function GetContact(t: ContactRepo.ContactTable, id: int): (r: Reply<Contact>)
    requires ContactRepo.Valid(t)
    ensures !ValidPathId(id) ==> r == Reply(422, ValidationError)
    ensures ValidPathId(id) ==> (r.status == 404 <==> id !in t.rows)
    ensures ValidPathId(id) && id !in t.rows ==> r.body == Detail(NotFoundDetail)
    ensures ValidPathId(id) && id in t.rows ==> r == Reply(200, Payload(t.rows[id]))
  {
    if !ValidPathId(id) then Reply(422, ValidationError)
    else FoundOrNotFound(ContactRepo.GetContactById(t, id))
  }

  /** `POST /contacts/`: always 201 with the stored row, under the next serial
      id. */
  function CreateContact(t: ContactRepo.ContactTable, body: ContactBody): (r: (ContactRepo.ContactTable, Reply<Contact>))
    requires ContactRepo.Valid(t)
    ensures ContactRepo.Valid(r.0)
    ensures r.1.status == 201 && r.1.body.Payload?
    ensures r.1.body.value.id == t.nextId && r.0.nextId == t.nextId + 1
    ensures r.1.body.value.id !in t.rows && r.0.rows == t.rows[r.1.body.value.id := r.1.body.value]
    ensures r.1.body.value == ContactRepo.FromBody(r.1.body.value.id, body)
  {
    var (t', c) := ContactRepo.AddContact(t, body);
    (t', Reply(201, Payload(c)))
  }

  /** `PUT /contacts/{contact_id}` */
  function UpdateContact(t: ContactRepo.ContactTable, id: int, body: ContactBody): (r: (ContactRepo.ContactTable, Reply<Contact>))
    requires ContactRepo.Valid(t)
    ensures ContactRepo.Valid(r.0)
    ensures !ValidPathId(id) ==> r == (t, Reply(422, ValidationError))
    ensures ValidPathId(id) && id !in t.rows ==> r == (t, Reply(404, Detail(NotFoundDetail)))
    ensures ValidPathId(id) && id in t.rows ==>
      && r.1 == Reply(200, Payload(ContactRepo.FromBody(id, body)))
      && r.0.rows == t.rows[id := ContactRepo.FromBody(id, body)]
    ensures r.0.nextId == t.nextId
  {
    if !ValidPathId(id) then (t, Reply(422, ValidationError))
    else
      var (t', updated) := ContactRepo.UpdateContact(t, id, body);
      (t', FoundOrNotFound(updated))
  }

  /** `DELETE /contacts/{contact_id}`: 204 whether or not the contact existed. */
  function DeleteContact(t: ContactRepo.ContactTable, id: int): (r: (ContactRepo.ContactTable, Reply<Contact>))
    requires ContactRepo.Valid(t)
    ensures ContactRepo.Valid(r.0)
    ensures !ValidPathId(id) ==> r == (t, Reply(422, ValidationError))
    ensures ValidPathId(id) ==> r.1 == Reply(204, NoBody) && r.0.rows == t.rows - {id}
    ensures r.0.nextId == t.nextId
  {
    if !ValidPathId(id) then (t, Reply(422, ValidationError))
    else
      var (t', _) := ContactRepo.DeleteContact(t, id);
      (t', Reply(204, NoBody))
  }

  /** A deleted contact's id stays missing: creating another contact
      afterwards does not bring it back, so reading it still gives 404. */
  lemma DeletedIdStaysMissing(t: ContactRepo.ContactTable, id: int, body: ContactBody)
    requires ContactRepo.Valid(t)
    requires id in t.rows
    ensures var t1 := DeleteContact(t, id).0;
      GetContact(CreateContact(t1, body).0, id) == Reply(404, Detail(NotFoundDetail))
  {
  }

  /** Create a contact, read it back under its generated id, delete it, and
      the same read then reports it missing. */
  lemma CreateReadDeleteRead(t: ContactRepo.ContactTable)
    requires ContactRepo.Valid(t)
    ensures var body := ContactBody("Ada", "Lovelace", None, "ada@x.com", None, None);
      var (t1, created) := CreateContact(t, body);
      var id := created.body.value.id;
      && id >= 1
      && GetContact(t1, id) == Reply(200, Payload(created.body.value))
      && created.body.value.firstName == "Ada" && created.body.value.email == "ada@x.com"
      && GetContact(DeleteContact(t1, id).0, id) == Reply(404, Detail(NotFoundDetail))
  {
  }

  // ---- upcoming birthdays -------------------------------------------------

  /** `w` lists, for `i` from 0 below `n`, the `%m-%d` label of `today + i`
      days (empty when `n` is not positive). */
  ghost predicate IsWindow(today: Calendar.Date, n: int, w: seq<string>)
    requires Calendar.Valid(today)
  {
    && |w| == (if n < 0 then 0 else n)
    && forall i: nat :: i < |w| ==>
         Calendar.AddDays(today, i).Some? && w[i] == Calendar.MonthDayLabel(Calendar.AddDays(today, i).value)
  }

  /** The clock as `next_birthday` reads it: `now(i)` is the date that
      `datetime.now()` gives on entry `i` of the loop, which reads it afresh
      each time. */
  type Clock = nat -> Calendar.Date

  ghost predicate ValidClock(now: Clock) {
    forall i: nat :: Calendar.Valid(now(i))
  }

  /** The date does not change while the window is built. */
  ghost predicate Steady(now: Clock) {
    forall i: nat :: now(i) == now(0)
  }

  /** `w` lists, for `i` from 0 below `n`, the `%m-%d` label of the date read
      on entry `i` plus `i` days. */
  ghost predicate IsWindowOnClock(now: Clock, n: int, w: seq<string>)
    requires ValidClock(now)
  {
    && |w| == (if n < 0 then 0 else n)
    && forall i: nat :: i < |w| ==>
         Calendar.AddDays(now(i), i).Some? && w[i] == Calendar.MonthDayLabel(Calendar.AddDays(now(i), i).value)
  }

  /** No entry of an `n`-entry window passes the last representable date. */
  ghost predicate WindowFits(now: Clock, n: int)
    requires ValidClock(now)
  {
    forall i: nat :: i < n ==> Calendar.Ordinal(now(i)) + i <= Calendar.MaxOrdinal
  }

  /** The label list `next_birthday` builds; `None` where adding the days
      passes the last representable date. */
  method BirthdayWindow(now: Clock, nextDay: int) returns (r: Option<seq<string>>)
    requires ValidClock(now)
    ensures r.Some? <==> WindowFits(now, nextDay)
    ensures r.Some? ==> IsWindowOnClock(now, nextDay, r.value)
  {
    var labels: seq<string> := [];
    var i: nat := 0;
    while i < nextDay
      invariant nextDay >= 0 ==> i <= nextDay
      invariant nextDay < 0 ==> i == 0
      invariant |labels| == i
      invariant forall j: nat :: j < i ==>
        Calendar.AddDays(now(j), j).Some? && labels[j] == Calendar.MonthDayLabel(Calendar.AddDays(now(j), j).value)
    {
      var d := Calendar.AddDays(now(i), i);
      if d.None? {
        assert Calendar.Ordinal(now(i)) + i > Calendar.MaxOrdinal;
        return None;
      }
      labels := labels + [Calendar.MonthDayLabel(d.value)];
      i := i + 1;
    }
    forall j: nat | j < nextDay
      ensures Calendar.Ordinal(now(j)) + j <= Calendar.MaxOrdinal
    {
      assert Calendar.AddDays(now(j), j).Some?;
    }
    return Some(labels);
  }

  /** On a steady clock the window is the one for that single date, and it
      fits exactly when its last day does. */
  lemma SteadyClockWindow(now: Clock, n: int, w: seq<string>)
    requires ValidClock(now)
    ensures Steady(now) ==>
      (WindowFits(now, n) <==> n <= 0 || Calendar.Ordinal(now(0)) + n - 1 <= Calendar.MaxOrdinal)
    ensures Steady(now) ==> (IsWindowOnClock(now, n, w) <==> IsWindow(now(0), n, w))
  {
    if Steady(now) && n > 0 && WindowFits(now, n) {
      var last: nat := n - 1;
      assert Calendar.Ordinal(now(last)) + last <= Calendar.MaxOrdinal;
    }
  }

  /** A request that crosses midnight after its first entry: the clock reads
      10 March 2024 once and 11 March 2024 afterwards, so the two-entry window
      holds 10 and 12 March and misses 11 March. */
  lemma MidnightSkipsADay(now: Clock, w: seq<string>)
    requires ValidClock(now)
    requires now(0) == Calendar.Date(2024, 3, 10)
    requires forall i: nat :: i >= 1 ==> now(i) == Calendar.Date(2024, 3, 11)
    requires IsWindowOnClock(now, 2, w)
    ensures w == ["03-10", "03-12"]
    ensures "03-11" !in w
  {
    var zero, one: nat := 0, 1;
    assert now(one) == Calendar.Date(2024, 3, 11);
    assert Calendar.AddDays(now(zero), zero) == Some(Calendar.Date(2024, 3, 10));
    assert Calendar.AddDays(now(one), one) == Some(Calendar.Date(2024, 3, 12));
    assert w[0] == Calendar.MonthDayLabel(Calendar.Date(2024, 3, 10)) == "03-10";
    assert w[1] == Calendar.MonthDayLabel(Calendar.Date(2024, 3, 12)) == "03-12";
  }

  /** A label is in the window exactly when some date among the next `n` days,
      counting today, carries it. */
  lemma WindowIsDateRange(today: Calendar.Date, n: int, w: seq<string>, s: string)
    requires Calendar.Valid(today)
    requires IsWindow(today, n, w)
    ensures s in w <==> exists d :: InRange(today, n, d) && Calendar.MonthDayLabel(d) == s
  {
    if s in w {
      var i: nat :| i < |w| && w[i] == s;
      var d := Calendar.AddDays(today, i).value;
      assert InRange(today, n, d);
    }
    if d :| InRange(today, n, d) && Calendar.MonthDayLabel(d) == s {
      var i: nat := Calendar.Ordinal(d) - Calendar.Ordinal(today);
      Calendar.AddDaysReaches(today, d);
      assert w[i] == s;
    }
  }

  /** `d` is one of the `n` days starting with `today`. */
  predicate InRange(today: Calendar.Date, n: int, d: Calendar.Date)
    requires Calendar.Valid(today)
  {
    Calendar.Valid(d) && Calendar.Ordinal(today) <= Calendar.Ordinal(d) < Calendar.Ordinal(today) + n
  }

  /** In any year, the window started on 28 December runs into the next year
      by month and day alone. */
  lemma YearWrapWindow(year: int, w: seq<string>)
    requires Calendar.MinYear <= year < Calendar.MaxYear
    requires IsWindow(Calendar.Date(year, 12, 28), 7, w)
    ensures w == ["12-28", "12-29", "12-30", "12-31", "01-01", "01-02", "01-03"]
  {
    var days := TurnOfYear(year);
    WindowOfConsecutiveDays(days, w);
    LabelsAtTurnOfYear(year);
  }

  lemma LabelsAtTurnOfYear(year: int)
    requires Calendar.MinYear <= year < Calendar.MaxYear
    ensures Calendar.MonthDayLabel(Calendar.Date(year, 12, 28)) == "12-28"
    ensures Calendar.MonthDayLabel(Calendar.Date(year, 12, 29)) == "12-29"
    ensures Calendar.MonthDayLabel(Calendar.Date(year, 12, 30)) == "12-30"
    ensures Calendar.MonthDayLabel(Calendar.Date(year, 12, 31)) == "12-31"
    ensures Calendar.MonthDayLabel(Calendar.Date(year + 1, 1, 1)) == "01-01"
    ensures Calendar.MonthDayLabel(Calendar.Date(year + 1, 1, 2)) == "01-02"
    ensures Calendar.MonthDayLabel(Calendar.Date(year + 1, 1, 3)) == "01-03"
  {
  }

  /** A window over a run of consecutive days lists those days' labels. */
  lemma WindowOfConsecutiveDays(days: seq<Calendar.Date>, w: seq<string>)
    requires |days| > 0
    requires forall i :: 0 <= i < |days| ==> Calendar.Valid(days[i])
    requires forall i :: 0 <= i < |days| - 1 ==> Calendar.NextDay(days[i]) == Some(days[i + 1])
    requires IsWindow(days[0], |days|, w)
    ensures forall i :: 0 <= i < |days| ==> w[i] == Calendar.MonthDayLabel(days[i])
  {
    AddDaysAlong(days, 0);
    forall i | 0 <= i < |days|
      ensures w[i] == Calendar.MonthDayLabel(days[i])
    {
      assert Calendar.AddDays(days[0], i) == Some(days[i]);
    }
  }

  /** 28 December to 3 January, each day followed by the next. */
  lemma TurnOfYear(year: int) returns (days: seq<Calendar.Date>)
    requires Calendar.MinYear <= year < Calendar.MaxYear
    ensures |days| == 7 && days[0] == Calendar.Date(year, 12, 28)
    ensures days[1..] == [Calendar.Date(year, 12, 29), Calendar.Date(year, 12, 30), Calendar.Date(year, 12, 31),
                          Calendar.Date(year + 1, 1, 1), Calendar.Date(year + 1, 1, 2), Calendar.Date(year + 1, 1, 3)]
    ensures forall i :: 0 <= i < |days| ==> Calendar.Valid(days[i])
    ensures forall i :: 0 <= i < |days| - 1 ==> Calendar.NextDay(days[i]) == Some(days[i + 1])
  {
    days := [Calendar.Date(year, 12, 28), Calendar.Date(year, 12, 29), Calendar.Date(year, 12, 30), Calendar.Date(year, 12, 31),
             Calendar.Date(year + 1, 1, 1), Calendar.Date(year + 1, 1, 2), Calendar.Date(year + 1, 1, 3)];
    assert Calendar.NextDay(days[3]) == Some(days[4]);
  }

  /** Along a run of consecutive days, adding `i` days to the first gives the
      `i`-th. */
  lemma {:induction false} AddDaysAlong(days: seq<Calendar.Date>, k: nat)
    requires k < |days|
    requires forall i :: 0 <= i < |days| ==> Calendar.Valid(days[i])
    requires forall i :: 0 <= i < |days| - 1 ==> Calendar.NextDay(days[i]) == Some(days[i + 1])
    ensures forall i :: k <= i < |days| ==> Calendar.AddDays(days[k], i - k) == Some(days[i])
    decreases |days| - k
  {
    if k + 1 < |days| {
      AddDaysAlong(days, k + 1);
      forall i | k + 1 <= i < |days|
        ensures Calendar.AddDays(days[k], i - k) == Some(days[i])
      {
        assert Calendar.AddDays(days[k], i - k) == Calendar.AddDays(days[k + 1], i - k - 1);
      }
    }
  }

  /** The contact's birthday falls, by month and day, on one of the `n` days
      starting with `today`. */
  ghost predicate BirthdayWithin(c: Contact, today: Calendar.Date, n: int)
    requires Calendar.Valid(today)
  {
    && c.birthday.Some?
    && Calendar.ParseIso(c.birthday.value).Some?
    && var b := Calendar.ParseIso(c.birthday.value).value;
       exists d :: InRange(today, n, d) && d.month == b.month && d.day == b.day
  }

  /** Matching against the window's labels is matching against the days. */
  lemma BirthdayInWindow(c: Contact, today: Calendar.Date, n: int, w: seq<string>)
    requires Calendar.Valid(today)
    requires IsWindow(today, n, w)
    requires ContactRepo.BirthdayParses(c)
    ensures ContactRepo.BirthdayIn(c, w) <==> BirthdayWithin(c, today, n)
  {
    if c.birthday.Some? {
      var b := Calendar.ParseIso(c.birthday.value).value;
      var s := Calendar.MonthDayLabel(b);
      WindowIsDateRange(today, n, w, s);
      forall d | InRange(today, n, d)
        ensures Calendar.MonthDayLabel(d) == s <==> d.month == b.month && d.day == b.day
      {
        Calendar.MonthDayLabelMatches(d, b);
      }
    }
  }

  /** The contact's birthday falls, by month and day, on the date some entry
      `i` below `n` labels: the date read on that entry plus `i` days. */
  ghost predicate BirthdayOnClock(c: Contact, now: Clock, n: int)
    requires ValidClock(now)
  {
    && c.birthday.Some?
    && Calendar.ParseIso(c.birthday.value).Some?
    && var b := Calendar.ParseIso(c.birthday.value).value;
       exists i: nat :: i < n && Calendar.AddDays(now(i), i).Some?
         && Calendar.AddDays(now(i), i).value.month == b.month && Calendar.AddDays(now(i), i).value.day == b.day
  }

  /** Matching against the labels built on a clock is matching against the
      dates those entries stand for. */
  lemma BirthdayInClockWindow(c: Contact, now: Clock, n: int, w: seq<string>)
    requires ValidClock(now)
    requires IsWindowOnClock(now, n, w)
    requires ContactRepo.BirthdayParses(c)
    ensures ContactRepo.BirthdayIn(c, w) <==> BirthdayOnClock(c, now, n)
  {
    if c.birthday.Some? {
      var b := Calendar.ParseIso(c.birthday.value).value;
      var s := Calendar.MonthDayLabel(b);
      if s in w {
        var i: nat :| i < |w| && w[i] == s;
        Calendar.MonthDayLabelMatches(Calendar.AddDays(now(i), i).value, b);
      }
      if BirthdayOnClock(c, now, n) {
        var i: nat :| i < n && Calendar.AddDays(now(i), i).Some?
          && Calendar.AddDays(now(i), i).value.month == b.month && Calendar.AddDays(now(i), i).value.day == b.day;
        Calendar.MonthDayLabelMatches(Calendar.AddDays(now(i), i).value, b);
        assert w[i] == s;
      }
    }
  }

  /** `GET /contacts/next_birthday`: the contacts whose birthday's month and
      day are among the window's labels; 500 when the window passes the last
      representable date or a stored birthday is not a date. On a steady
      clock these are the birthdays within the next `next_day` days,
      counting today. */
  method NextBirthday(t: ContactRepo.ContactTable, now: Clock, nextDay: Option<int>)
    returns (r: Reply<seq<Contact>>)
    requires ContactRepo.Valid(t)
    requires ValidClock(now)
    ensures r.status == 200 || r == Reply(500, ServerError)
    ensures var n := if nextDay.Some? then nextDay.value else DefaultNextDay;
      r.status == 200 <==>
        && WindowFits(now, n)
        && forall c :: c in ContactRepo.Rows(t) ==> ContactRepo.BirthdayParses(c)
    ensures var n := if nextDay.Some? then nextDay.value else DefaultNextDay;
      r.status == 200 ==>
        && r.body.Payload?
        && forall c :: c in r.body.value <==> c in ContactRepo.Rows(t) && BirthdayOnClock(c, now, n)
    ensures r.status == 200 ==>
      ContactRepo.IsSubsequence(r.body.value, ContactRepo.Rows(t)) && ContactRepo.NoDup(r.body.value)
    ensures var n := if nextDay.Some? then nextDay.value else DefaultNextDay;
      Steady(now) ==>
        && (r.status == 200 <==>
              && (n <= 0 || Calendar.Ordinal(now(0)) + n - 1 <= Calendar.MaxOrdinal)
              && forall c :: c in ContactRepo.Rows(t) ==> ContactRepo.BirthdayParses(c))
        && (r.status == 200 ==>
              forall c :: c in r.body.value <==> c in ContactRepo.Rows(t) && BirthdayWithin(c, now(0), n))
  {
    var n := if nextDay.Some? then nextDay.value else DefaultNextDay;
    var window := BirthdayWindow(now, n);
    SteadyClockWindow(now, n, if window.Some? then window.value else []);
    if window.None? {
      return Reply(500, ServerError);
    }
    var found := ContactRepo.NextBirthday(t, window.value);
    if found.Err? {
      return Reply(500, ServerError);
    }
    forall c | c in ContactRepo.Rows(t)
      ensures ContactRepo.BirthdayIn(c, window.value) <==> BirthdayOnClock(c, now, n)
      ensures Steady(now) ==> (ContactRepo.BirthdayIn(c, window.value) <==> BirthdayWithin(c, now(0), n))
    {
      BirthdayInClockWindow(c, now, n, window.value);
      if Steady(now) {
        BirthdayInWindow(c, now(0), n, window.value);
      }
    }
    return Reply(200, Payload(found.value));
  }
}

=== FILE: models.dfy ===
/** The two persisted record shapes, `Contact` and `User`, the `Role`
    enumeration, and the request bodies the endpoints accept. A nullable
    column is an `Option`; a column without `nullable=True` and annotated
    `Mapped[str]` is a plain string. Two exceptions: `User.avatar` is an
    `Option` although its column is NOT NULL, because `add_user` writes `None`
    there when the avatar lookup fails (the declared constraint is modelled
    separately, in `UserRepo.AddUserAsDeclared`); and `User.role` is a plain
    `Role` although its column is nullable, because every insert takes the
    column default and no operation here writes `NULL` to it. */
module Models {
  import opened Options

  /** The role enumeration; its stored names are the lower-case words. */
  datatype Role = Admin | Moderator | UserRole

  function RoleName(r: Role): (name: string)
    ensures name in {"admin", "moderator", "user"}
  {
    match r
    case Admin => "admin"
    case Moderator => "moderator"
    case UserRole => "user"
  }

  /** The role a freshly inserted user gets from the column default. */
  const DefaultRole: Role := UserRole

  /** Each stored role name belongs to exactly one role, and all three names
      are used. */
  lemma RoleNamesBijective()
    ensures forall r1: Role, r2: Role :: RoleName(r1) == RoleName(r2) ==> r1 == r2
    ensures {RoleName(Admin), RoleName(Moderator), RoleName(UserRole)} == {"admin", "moderator", "user"}
  {
  }

  /** One row of the `contacts` table. `id` is the primary key. */
  datatype Contact = Contact(
    id: int,
    firstName: string,
    lastName: string,
    phone: Option<string>,
    email: string,
    birthday: Option<string>,
    addition: Option<string>)

  /** The fields a client sends to create or replace a contact; a field the
      client leaves unset is `None` and the column default (NULL) applies. */
  datatype ContactBody = ContactBody(
    firstName: string,
    lastName: string,
    phone: Option<string>,
    email: string,
    birthday: Option<string>,
    addition: Option<string>)

  /** The three columns the search endpoint can filter on. */
  datatype Field = FirstName | LastName | Email

  function FieldValue(c: Contact, f: Field): string {
    match f
    case FirstName => c.firstName
    case LastName => c.lastName
    case Email => c.email
  }

  /** One row of the `users` table. `email` is unique and non-null;
      `refreshToken` is the single nullable refresh-token slot. */
  datatype User = User(
    id: int,
    username: string,
    email: string,
    password: string,
    avatar: Option<string>,
    refreshToken: Option<string>,
    role: Role)

  /** The sign-up body: the password field holds the plaintext on the wire and
      the hash once the sign-up route has replaced it. */
  datatype UserBody = UserBody(username: string, email: string, password: string)
}

=== FILE: options.dfy ===
/** Failure-carrying wrappers used throughout the model: `Option` stands for
    Python's `None`-or-value returns, `Result` for a call that either yields a
    value or raises. */
module Options {

  datatype Option<+T> = None | Some(value: T)

  datatype Result<+T, +E> = Ok(value: T) | Err(error: E)
}

=== FILE: user_repo.dfy ===
/** The user repository over an abstract in-memory `users` table, keyed by
    the unique, non-null email column. */
module UserRepo {
  import opened Options
  import opened Models

  datatype UserTable = UserTable(byEmail: map<string, User>, nextId: int)

  /** Table invariants: each user is stored under its own email (so emails
      are unique), and ids come from the serial sequence and are distinct. */
  predicate Valid(t: UserTable) {
    && t.nextId >= 1
    && (forall e :: e in t.byEmail ==> t.byEmail[e].email == e && 1 <= t.byEmail[e].id < t.nextId)
    && (forall e1, e2 :: e1 in t.byEmail && e2 in t.byEmail && e1 != e2 ==> t.byEmail[e1].id != t.byEmail[e2].id)
  }

  const EmptyTable := UserTable(map[], 1)

  /** No two stored users share an email, nor an id. */
  lemma {:induction false} KeysAreUnique(t: UserTable, u1: User, u2: User)
    requires Valid(t)
    requires u1 in t.byEmail.Values && u2 in t.byEmail.Values
    requires u1.email == u2.email || u1.id == u2.id
    ensures u1 == u2
  {
    var e1 :| e1 in t.byEmail && t.byEmail[e1] == u1;
    var e2 :| e2 in t.byEmail && t.byEmail[e2] == u2;
  }

  /** `get_user_by_email`: the one user with this email, or `None`. */
  function GetUserByEmail(t: UserTable, email: string): (r: Option<User>)
    requires Valid(t)
    ensures r.Some? ==> r.value in t.byEmail.Values && r.value.email == email
    ensures forall u :: u in t.byEmail.Values && u.email == email ==> r == Some(u)
  {
    if email in t.byEmail then Some(t.byEmail[email]) else None
  }

  /** The database refuses a second row with the same unique value, and a
      missing value in a column declared without `nullable=True`. */
  datatype DbError = UniqueViolation(column: string) | NotNullViolation(column: string)

  /** `add_user` against the `users` table as declared, where `avatar` has no
      `nullable=True` and so is NOT NULL: when the avatar lookup raised, the
      insert of `avatar = None` is refused at commit. The row's NOT NULL
      constraints are checked before the unique index is consulted, so that
      refusal wins over a duplicate email. */
  function AddUserAsDeclared(t: UserTable, body: UserBody, avatar: Option<string>): (r: Result<(UserTable, User), DbError>)
    requires Valid(t)
    ensures r.Err? <==> body.email in t.byEmail || avatar.None?
    ensures avatar.None? ==> r == Err(NotNullViolation("avatar"))
    ensures avatar.Some? && body.email in t.byEmail ==> r == Err(UniqueViolation("email"))
    ensures avatar.Some? ==> r == AddUser(t, body, avatar)
  {
    if avatar.None? then Err(NotNullViolation("avatar"))
    else AddUser(t, body, avatar)
  }

  /** With the column as declared, a new account whose avatar lookup raised is
      never stored, although nothing else stands in its way: the same insert
      into a nullable column succeeds. */
  lemma AvatarFailureBreaksInsert(t: UserTable, body: UserBody)
    requires Valid(t)
    requires body.email !in t.byEmail
    ensures AddUserAsDeclared(t, body, None) == Err(NotNullViolation("avatar"))
    ensures AddUser(t, body, None).Ok? && AddUser(t, body, None).value.1.avatar == None
  {
  }

  /** `add_user` with `avatar` nullable, as the code evidently intends (it
      catches the lookup's failure and stores `None`): insert a user built
      from the body and the lookup's outcome. The only failure is the email
      uniqueness constraint; the avatar never causes one. */
  function AddUser(t: UserTable, body: UserBody, avatar: Option<string>): (r: Result<(UserTable, User), DbError>)
    requires Valid(t)
    ensures r.Err? <==> body.email in t.byEmail
    ensures r.Err? ==> r.error == UniqueViolation("email")
    ensures r.Ok? ==> Valid(r.value.0)
    ensures r.Ok? ==>
      var u := r.value.1;
      && u.username == body.username && u.email == body.email && u.password == body.password
      && u.avatar == avatar && u.refreshToken == None && u.role == DefaultRole
      && (forall e :: e in t.byEmail ==> t.byEmail[e].id != u.id)
      && r.value.0.byEmail == t.byEmail[body.email := u]
  {
    if body.email in t.byEmail then Err(UniqueViolation("email"))
    else
      var u := User(t.nextId, body.username, body.email, body.password, avatar, None, DefaultRole);
      Ok((UserTable(t.byEmail[u.email := u], t.nextId + 1), u))
  }

  /** `update_token`: set the refresh-token slot of the user with this email
      to `token` (a token or `None`). */
  function UpdateToken(t: UserTable, email: string, token: Option<string>): (r: UserTable)
    requires Valid(t)
    requires email in t.byEmail
    ensures Valid(r)
    ensures r.byEmail.Keys == t.byEmail.Keys
    ensures r.byEmail[email].refreshToken == token
    ensures r.byEmail[email] == t.byEmail[email].(refreshToken := token)
    ensures forall e :: e in t.byEmail && e != email ==> r.byEmail[e] == t.byEmail[e]
  {
    UserTable(t.byEmail[email := t.byEmail[email].(refreshToken := token)], t.nextId)
  }
}
